=== FILE: README.md ===
# Side-scroller game state, modelled in Dafny

This project models the game-state logic of a small browser side-scroller
(`js/game.js`). The player walks right through an endless world, shoots at
tapped points, and is attacked by pigeons ("enemies") that fly in from the
right. Along the way the player collects heal items and "cow" items; a cow
gives the player a mount with its own hit points and stronger shots. The
game is won at 500 metres and lost when the player's hp reaches 0.

What is modelled, one module per concept:

- `Input`: the direction flags and the pending attack point, with
  take-and-clear consumption of the attack.
- `Players`: velocity choice from the keys (right beats left, down beats up),
  movement, the screen clamp, and health bookkeeping.
- `Projectiles`, `Enemies`, `Items`: the two shot tiers, movement and
  off-screen flagging, and spawning from explicit random draws.
- `Cameras`: the one-way horizontal scroll.
- `Collisions`: the three collision passes of a frame, with closed forms for
  their total effect.
- `Filtering`: removal of flagged entities. The same filter drops shots, items and enemies (js/game.js:402, 413 and 424).
- `Chance`: the values `Math.random()` can return.
- `World`: the spawners, the full frame update, the win/loss latch and the
  frame loop, with the invariant the game keeps across frames.
- `Scenarios`: concrete situations of play, proved from the
  general model.

Everything is a pure function over immutable datatypes. Positions, speeds
and the canvas size are `real`; hit points are `int`. Each call of
`Math.random()` becomes a parameter in `[0, 1)` (`Chance.Draw`, grouped per frame in `World.Draws`). A shot's
velocity is also a parameter (see "Left out").

Two places where the code does not do what one might expect, and the model
follows the code:

- One might expect the player's hp to stay within `[0, maxHp]`. The code
  subtracts 10 per contact with no floor, so hp can end a frame below 0
  (for example at -10). `Players.Consistent` therefore bounds hp only from
  above.
- One might expect that aiming at the player's own centre fires nothing.
  The code divides by a zero distance there and produces a shot
  with a non-numeric velocity. The model takes the velocity as given, so
  this case is not represented.

## Model

| member | source | states |
|---|---|---|
| Input.SetKey | js/game.js:16-29 | a key press or release sets exactly the named direction flag; the other flags and the pending attack are unchanged |
| Input.Tap | js/game.js:61-73 | a tap makes its point the pending attack, replacing any earlier one; the flags are unchanged |
| Input.GetAttack | js/game.js:76-81 | returns the pending attack point and leaves none pending; the flags are unchanged |
| Input.GetAttackTwice | js/game.js:76-81 | a second take with no tap in between returns nothing and changes nothing |
| Input.ApplyAll | js/game.js:15-73 | after the listeners fire in order, each key flag holds its last change or its old state, and the pending attack is the last tap or the one already pending |
| Input.ApplyAllAppend | js/game.js:15-73 | delivering listener events in two batches is delivering them in one |
| Input.LastTapWins | js/game.js:61-81 | of two taps before a frame only the last one is delivered; key changes in between do not disturb the pending attack |
| Players.Spawn | js/game.js:85-100 | a new player starts at x = 100, 100 pixels above the bottom edge, with full hp, not riding, mount hp 0, in a consistent health state |
| Players.AxisVelocity | js/game.js:104-119 | the velocity is positive exactly when the first-tested key is held, negative exactly when only the other one is, and is one of +speed, -speed or 0 |
| Players.Update | js/game.js:102-131 | velocity from the keys with right and down winning; x is the unclamped move when that is not negative and exactly 0 when it is; y is the unclamped move when in range, exactly height - 50 when past the bottom (and always when the view is shorter than 50), exactly 0 when above the top of a view at least 50 tall; hp, mount hp and riding are untouched |
| Players.RightAndDownWin | js/game.js:104-119 | while right is held the left key has no effect on the update at all, and while down is held the up key has none |
| Players.UpdateInBounds | js/game.js:124-130 | from any position, with any keys and elapsed time, the update ends inside the view when the view is at least 50 pixels tall |
| Players.IdleStaysPut | js/game.js:102-131 | with no key held, a player inside the view stays where it is with zero velocity |
| Projectiles.Spawn | js/game.js:152-160 | a powerful shot has size 20 and damage 50, a normal one size 10 and damage 20; it starts at the given point with the given velocity, unflagged |
| Projectiles.Update | js/game.js:171-182 | the shot moves by velocity times elapsed time and is flagged iff it was already or its new position is outside the camera's view or the canvas height |
| Projectiles.OffScreen | js/game.js:176-179 | a point is off screen iff it is not within the camera's horizontal view (edges included) and the canvas height |
| Projectiles.UpdateKeepsTier | js/game.js:171-182 | moving a shot never changes its size/damage tier |
| Enemies.Spawn | js/game.js:193-205 | a new enemy appears between 0 and 200 pixels past the right edge of the view, at a height within the band above the ground when there is room, flying left at a speed in [0.2, 0.3), with 30 hp, unflagged |
| Enemies.Update | js/game.js:207-214 | the enemy moves by velocity times elapsed time, so a left-flying enemy never moves right, and is flagged iff it was already or is now more than 100 pixels behind the camera |
| Enemies.UpdateTwice | js/game.js:207-214 | for a left-flying enemy and a still camera, two updates in a row equal one update over the summed time, flag included |
| Items.Spawn | js/game.js:405-408 | the item is placed 100 pixels past the threshold, 100 to 200 pixels above the bottom edge, and is a cow exactly when the draw exceeds 0.7 |
| Cameras.Update | js/game.js:262-270 | the camera never moves back and never goes below 0; it ends at the largest of its old position, the target and 0; if the target is ahead of a camera at 0 or beyond it moves exactly to the target, otherwise it stays put |
| Cameras.FollowIsRunningMax | js/game.js:262-270 | over any sequence of frames the camera ends at the running maximum of its start, every target on the way, and 0, so it is monotone over whole runs |
| Filtering.Filter | js/game.js:402-424 | the result is no longer than the input, holds only kept elements of the input, and holds every kept element |
| Filtering.KeptPicksFilter | js/game.js:402-424 | the filtered sequence is picked out of the input element by element at the listed positions |
| Filtering.KeptIncreasing | js/game.js:402-424 | those positions are strictly increasing, so the kept elements stay in their original order |
| Filtering.KeptComplete | js/game.js:402-424 | every position holding an unflagged element is among them, so exactly the unflagged entities survive |
| Filtering.FilterAppend | js/game.js:402-424 | filtering a concatenation is the concatenation of the filtered parts |
| Filtering.FilterAllKept | js/game.js:402-424 | a sequence with nothing flagged passes through unchanged |
| Filtering.FilterIdempotent | js/game.js:402-424 | filtering twice is filtering once |
| Geometry.Overlaps | js/game.js:321-325 | for boxes of positive size, two boxes overlap iff their horizontal and vertical intervals each have a non-empty open intersection |
| Collisions.Bump | js/game.js:329-337 | one contact is the one-bump case of the bump count: hp never rises, the box does not move and the health consistency is kept |
| Collisions.PlayerVsEnemies | js/game.js:320-341 | every touching enemy is flagged and nothing else about the enemies changes; the player's position is unchanged, its hp never rises, and the health consistency is kept |
| Collisions.BumpsToDismount | js/game.js:329-334 | the number of contacts the mount absorbs is the least n >= 1 that brings its hp to 0 or below |
| Collisions.BumpThenAfter | js/game.js:329-337 | one contact followed by k more has the effect of k + 1 contacts in the closed form |
| Collisions.PlayerVsEnemiesDamage | js/game.js:320-341 | after the pass the player is exactly as after one contact per touching enemy: on foot hp drops by 10 each; riding, the mount absorbs contacts until its hp reaches 0 or less, the ride then ends with mount hp 0, and later contacts reduce hp |
| Collisions.Struck | js/game.js:352-356 | an enemy struck by one shot keeps its box, loses that shot's damage when the boxes overlap, and is flagged iff it was already or that damage is lethal |
| Collisions.Sweep | js/game.js:345-358 | one shot against every enemy, with no early exit: each enemy is struck independently and the shot is flagged iff it was already or strikes any enemy |
| Collisions.ProjectilesVsEnemies | js/game.js:344-359 | the nested pass keeps the number of shots and enemies and moves no enemy |
| Collisions.LethalUnfold | js/game.js:352-356 | a lethal strike in a list of shots is either the first shot being lethal by itself or a later one being lethal from the hp the first left |
| Collisions.PassOneEnemy | js/game.js:344-359 | an enemy struck by the first shot and then by the rest ends as if struck by all of them, in damage and in flag |
| Collisions.ProjectilePassEnemies | js/game.js:344-359 | each enemy's hp drops by the sum of the damage of every shot that overlaps it, shots already flagged included, and it is flagged iff it was already or some strike left it at 0 or less |
| Collisions.ProjectilePassShots | js/game.js:344-359 | each shot is flagged iff it was already or overlaps some enemy |
| Collisions.DamageNonNegative | js/game.js:353 | with non-negative shot damage the total damage is non-negative, and zero when no shot strikes |
| Collisions.LethalIffStruckAndSpent | js/game.js:353-356 | with non-negative damage an enemy is killed by the pass iff some shot strikes it and its hp ends at 0 or less |
| Collisions.Collect | js/game.js:369-378 | the box does not move; a heal raises hp by 20 capped at its maximum and heals the mount in the same way only while riding; a cow puts the player on a full-health mount and leaves hp alone; the hp cap and the health consistency are kept |
| Collisions.PlayerVsItems | js/game.js:362-380 | every reached item is flagged and nothing else about the items changes; the player's position is unchanged; a heal never takes hp past its maximum; the health consistency is kept |
| Collisions.PlayerVsItemsHp | js/game.js:362-380 | hp ends with every reached heal added, 20 each, capped at its maximum, whatever else was reached |
| Collisions.PlayerVsItemsMount | js/game.js:362-380 | a reached cow leaves the player riding with a full mount whatever came before or after it; otherwise the ride is unchanged, a ridden mount receives every heal capped at its maximum, and on foot the mount hp is untouched |
| Collisions.HealedBounds | js/game.js:371-373 | heals applied to a value at most its maximum never lower it and never raise it past the maximum |
| World.Init | js/game.js:274-299 | the game starts playing with no entities and in a state satisfying the frame invariant |
| World.MoveProjectiles | js/game.js:401 | every shot is advanced by its own update, none added or removed |
| World.MoveEnemies | js/game.js:423 | every enemy is advanced by its own update, none added or removed |
| World.Fire | js/game.js:388-398 | a pending attack adds exactly one unflagged shot at the player's centre with the given velocity, of the powerful tier iff riding and the normal tier otherwise; without one the shots are unchanged |
| World.SpawnItem | js/game.js:405-410 | an item spawns iff the view's right edge passes the threshold, and the threshold then moves on by at least 1500 and less than 2500; otherwise nothing changes |
| World.SpawnEnemy | js/game.js:416-420 | an enemy spawns iff the accumulated time exceeds 2000, and the timer is then 0; otherwise the timer grows by the elapsed time and no enemy spawns |
| World.CheckCollisions | js/game.js:318-381 | the three passes keep the number of every kind of entity, never move the player, keep the health consistency, and change nothing about a shot but its flag |
| World.CheckCollisionsHp | js/game.js:318-381 | the player's hp after the collision step is that after one contact per touching enemy, mount first, followed by every reached heal capped at the maximum |
| World.Advance | js/game.js:384-402 | the player is the player update of the held keys, the camera follows that new position, the shots are the old ones plus a shot at the consumed attack, moved and with flagged ones dropped; the camera never moves back, the pending attack is consumed, the health consistency is kept and every shot stays in one of the two tiers |
| World.Populate | js/game.js:404-424 | only items, enemies, the item threshold and the enemy timer change; the items are the spawner's list with flagged ones dropped, the threshold and timer are the spawners' own, the enemies are the spawner's list moved with flagged ones dropped; the threshold never decreases and no flagged enemy survives |
| World.Update | js/game.js:383-427 | one update never moves the camera back or the item threshold down, consumes the pending attack, and preserves the frame invariant |
| World.Judge | js/game.js:474-485 | the game is won iff it already was or it was playing with the player at x >= 50000; lost iff it already was or it was playing, not at the winning distance, with hp <= 0; a finished game is left alone |
| World.WinDistanceIff | js/game.js:469 | the floor of x / 100 reaches 500 exactly when x >= 50000 |
| World.Frame | js/game.js:488-495 | the events since the last frame reach the input, then a frame runs: while playing, the player ends where the player update over the elapsed time (timestamp minus the previous one) with the updated keys puts it, the camera follows it, and the attack is consumed; a frame of a finished game changes only the clock and the input; every frame keeps the invariant and the camera and threshold monotone |
| World.Run | js/game.js:488-498 | after a run the frame clock holds the last frame's timestamp (the starting one for no frames) and the canvas size is unchanged |
| World.RunAfterGameOver | js/game.js:492-495 | once the game is over, any number of further frames and input events change nothing but the frame clock and the input |
| World.RunKeepsInv | js/game.js:383-427 | over any run from a consistent state, whatever keys and taps arrive between frames, the invariant holds at the end and the camera and item threshold never went back |
| World.RunAppend | js/game.js:488-498 | running two stretches of frames in turn is the same as running them together |
| World.RunStatusLatch | js/game.js:474-495 | once a stretch of frames has ended the game, any further frames leave its status as it is: the end state is set at most once |
| Scenarios.TwoNormalShotsKill | js/game.js:344-359 | a 30 hp enemy struck by one normal shot is left at 10 hp and unflagged; struck by two in one frame it ends flagged at -10 hp |
| Scenarios.TwoContactsLose | js/game.js:320-341 | a player on foot at 10 hp touching two enemies ends the frame at -10 hp and the game is then lost |
| Scenarios.HealCapsAtMax | js/game.js:370-371 | a heal collected at 90 of 100 hp yields 100 |
| Scenarios.CowRefillsMount | js/game.js:375-377 | a cow collected while riding at 40 mount hp refills the mount to 100 |
| Scenarios.MountAbsorbsThenBreaks | js/game.js:329-337 | a mount at 15 hp absorbs one contact, ends the ride on the second, and the third reaches the player |

## Left out

- Geometry.Overlaps: the interval reading is stated only for boxes of positive size, which is every box the game builds; with a negative width the four comparisons and the interval reading part ways.
- Drawing: every `draw` method and `Game.draw` only paint the canvas.
- The health bar and distance text of `Game.updateUI` are display only; its win/loss part is `World.Judge`.
- The event listeners are host wiring. Their effect is modelled as `Input.SetKey` and `Input.Tap`, delivered between frames as `Input.Event`s; the mapping from key names (`ArrowUp`, `w`, ...) to directions is not modelled.
- The constructor builds the player from the canvas's initial size and then resizes to the window; `World.Init` takes one size for both.
- The `resize` handler takes the window size from the host, so the view size is fixed for a run.
- `requestAnimationFrame`, `init` and `console.log` are host scheduling and logging; `World.Run` drives frames from a given sequence of ticks instead, each carrying the listener events since the previous frame.
- The direction normalisation of a new shot (a square root, and a division by zero when the target is the start point) is not modelled: each shot's velocity is a parameter. So is the world-coordinate target it is computed from, and the shot's speed constant 0.8.
- Projectiles.Spawn: does not model the velocity's length of 0.8 pixels per millisecond, because the velocity is an input.
- `Math.random()` calls are parameters of type `Chance.Draw`, the reals in `[0, 1)`.
- Positions and times are exact reals, not IEEE doubles; nothing in the game depends on rounding.
- Colours, the camera's vertical offset (always 0) and the cached canvas context are not game state.

=== FILE: cameras.dfy ===
/** The horizontal scroll (`Camera`, js/game.js:255-271). */
module Cameras {
  import opened Geometry

  /** The camera keeps the player at this fraction of the view width. */
  const Lead: real := 0.3

  /** Only the horizontal offset: the vertical one is always 0. */
  datatype Camera = Camera(x: real)

  const Initial: Camera := Camera(0.0)

  function Target(playerX: real, viewWidth: real): real
  {
    playerX - viewWidth * Lead
  }

  /** A one-way follow (js/game.js:262-270): move forward to the target if it
      is ahead, never back, then clamp at 0. */
  function Update(c: Camera, playerX: real, viewWidth: real): (r: Camera)
    ensures r.x >= c.x && r.x >= 0.0
    ensures r.x == MaxReal(MaxReal(c.x, Target(playerX, viewWidth)), 0.0)
    ensures c.x >= 0.0 && Target(playerX, viewWidth) > c.x ==> r.x == Target(playerX, viewWidth)
    ensures c.x >= 0.0 && Target(playerX, viewWidth) <= c.x ==> r == c
  {
    var t := Target(playerX, viewWidth);
    var x := if t > c.x then t else c.x;
    Camera(if x < 0.0 then 0.0 else x)
  }

  /** The camera after following the player through positions `xs`, frame
      by frame. */
  function Follow(c: Camera, xs: seq<real>, viewWidth: real): Camera
    decreases |xs|
  {
    if |xs| == 0 then c else Follow(Update(c, xs[0], viewWidth), xs[1..], viewWidth)
  }

  /** The farthest point the camera has been asked to reach, at least `x0`. */
  function Farthest(x0: real, xs: seq<real>, viewWidth: real): (m: real)
    ensures m >= x0
    ensures forall i :: 0 <= i < |xs| ==> m >= Target(xs[i], viewWidth)
    decreases |xs|
  {
    if |xs| == 0 then x0 else Farthest(MaxReal(x0, Target(xs[0], viewWidth)), xs[1..], viewWidth)
  }

  /** The ratchet over a whole run from a camera at 0 or beyond: the camera
      ends at the running maximum of its start, every target on the way, and 0. So it never moves back,
      and it depends on the farthest target only, not on the order. */
  lemma {:induction false} FollowIsRunningMax(c: Camera, xs: seq<real>, viewWidth: real)
    requires c.x >= 0.0
    ensures Follow(c, xs, viewWidth).x == MaxReal(Farthest(c.x, xs, viewWidth), 0.0)
    ensures Follow(c, xs, viewWidth).x >= c.x
    decreases |xs|
  {
    if |xs| > 0 {
      var t := Target(xs[0], viewWidth);
      var c1 := Update(c, xs[0], viewWidth);
      FollowIsRunningMax(c1, xs[1..], viewWidth);
      FarthestMax(MaxReal(c.x, t), 0.0, xs[1..], viewWidth);
      assert Follow(c, xs, viewWidth) == Follow(c1, xs[1..], viewWidth);
      assert Farthest(c.x, xs, viewWidth) == Farthest(MaxReal(c.x, t), xs[1..], viewWidth);
    }
  }

  /** Raising the starting point to `b` raises the result to at least `b`
      and changes nothing else. */
  lemma {:induction false} FarthestMax(a: real, b: real, xs: seq<real>, viewWidth: real)
    ensures Farthest(MaxReal(a, b), xs, viewWidth) == MaxReal(Farthest(a, xs, viewWidth), b)
    decreases |xs|
  {
    if |xs| > 0 {
      var t := Target(xs[0], viewWidth);
      assert MaxReal(MaxReal(a, b), t) == MaxReal(MaxReal(a, t), b);
      FarthestMax(MaxReal(a, t), b, xs[1..], viewWidth);
    }
  }
}

=== FILE: chance.dfy ===
/** Randomness as data: every `Math.random()` call of the game becomes a
    parameter of this type. */
module Chance {

  /** A value `Math.random()` can return. */
  type Draw = r: real | 0.0 <= r < 1.0 witness 0.0

  /** A draw scales a non-negative length to between 0 and that length,
      strictly below it when the length is positive. */
  lemma Scale(r: Draw, len: real)
    ensures len >= 0.0 ==> 0.0 <= r * len <= len
    ensures len > 0.0 ==> r * len < len
  {
    if len > 0.0 {
      assert (1.0 - r) * len > 0.0;
    } else if len == 0.0 {
      assert r * len == 0.0;
    }
  }
}

=== FILE: collisions.dfy ===
/** The three collision passes of `Game.checkCollisions` (js/game.js:318-381).
    Every pass only sets deletion flags and health fields; no position moves,
    so every overlap test in a pass sees the boxes as they were when the
    pass began. */
module Collisions {
  import opened Geometry
  import Players
  import Projectiles
  import Enemies
  import Items

  /** What one touching enemy takes from the player or the mount. */
  const ContactDamage: int := 10
  /** What one heal item restores, up to the maximum. */
  const HealAmount: int := 20

  // ---------------------------------------------------------------------
  // Player against enemies (js/game.js:320-341)
  // ---------------------------------------------------------------------

  predicate Touching(p: Players.Player, e: Enemies.Enemy)
  {
    Overlaps(Players.BoxOf(p), Enemies.BoxOf(e))
  }

  /** The effect of one touching enemy: the mount absorbs it while ridden and
      is lost, with its hp reset to 0, once that hp reaches 0 or less;
      otherwise the player's own hp drops. */
  function Bump(p: Players.Player): (r: Players.Player)
    ensures r == AfterBumps(p, 1)
    ensures r.hp <= p.hp && Players.BoxOf(r) == Players.BoxOf(p)
    ensures Players.Consistent(p) ==> Players.Consistent(r)
  {
    if p.isRidingCow then
      if p.cowHp - ContactDamage <= 0 then p.(isRidingCow := false, cowHp := 0)
      else p.(cowHp := p.cowHp - ContactDamage)
    else p.(hp := p.hp - ContactDamage)
  }

  /** The pass over the enemies, in order: every touching enemy is flagged
      and bumps the player; nothing else changes. */
  function PlayerVsEnemies(p: Players.Player, es: seq<Enemies.Enemy>): (r: (Players.Player, seq<Enemies.Enemy>))
    ensures |r.1| == |es|
    ensures forall i :: 0 <= i < |es| ==> r.1[i] == es[i].(marked := es[i].marked || Touching(p, es[i]))
    ensures r.0 == p.(hp := r.0.hp, cowHp := r.0.cowHp, isRidingCow := r.0.isRidingCow)
    ensures r.0.hp <= p.hp
    ensures Players.Consistent(p) ==> Players.Consistent(r.0)
    decreases |es|
  {
    if |es| == 0 then (p, [])
    else
      var hit := Touching(p, es[0]);
      var rest := PlayerVsEnemies(if hit then Bump(p) else p, es[1..]);
      (rest.0, [es[0].(marked := es[0].marked || hit)] + rest.1)
  }

  /** How many enemies in `es` touch the box `b`. */
  function Contacts(b: Box, es: seq<Enemies.Enemy>): nat
    decreases |es|
  {
    if |es| == 0 then 0
    else (if Overlaps(b, Enemies.BoxOf(es[0])) then 1 else 0) + Contacts(b, es[1..])
  }

  /** How many bumps a mount with hp `c` takes before it is lost: the least
      `n >= 1` with `c - 10 * n <= 0`. */
  function BumpsToDismount(c: int): (n: nat)
    ensures n >= 1 && c - ContactDamage * n <= 0
    ensures n == 1 || c - ContactDamage * (n - 1) > 0
  {
    if c <= ContactDamage then 1 else (c + ContactDamage - 1) / ContactDamage
  }

  /** The player after `k` bumps, in closed form: without the mount, hp drops
      by 10 per bump; with it, the first `BumpsToDismount(cowHp)` bumps go to
      the mount, the last of them ends the ride and zeroes its hp, and any
      bumps after that reach the player's hp. */
  function AfterBumps(p: Players.Player, k: nat): Players.Player
  {
    if !p.isRidingCow then p.(hp := p.hp - ContactDamage * k)
    else if k < BumpsToDismount(p.cowHp) then p.(cowHp := p.cowHp - ContactDamage * k)
    else p.(isRidingCow := false, cowHp := 0,
            hp := p.hp - ContactDamage * (k - BumpsToDismount(p.cowHp)))
  }

  /** One bump followed by `k` more is `k + 1` bumps. */
  lemma BumpThenAfter(p: Players.Player, k: nat)
    ensures AfterBumps(Bump(p), k) == AfterBumps(p, k + 1)
  {
    if p.isRidingCow && p.cowHp > ContactDamage {
      assert BumpsToDismount(p.cowHp - ContactDamage) == BumpsToDismount(p.cowHp) - 1;
    }
  }

  /** The damage of the whole pass: the player ends exactly as after one bump
      per touching enemy, so damage adds up over all simultaneous contacts
      and switches from the mount to the player when the mount is lost. */
  lemma {:induction false} PlayerVsEnemiesDamage(p: Players.Player, es: seq<Enemies.Enemy>)
    ensures PlayerVsEnemies(p, es).0 == AfterBumps(p, Contacts(Players.BoxOf(p), es))
    decreases |es|
  {
    if |es| > 0 {
      var hit := Touching(p, es[0]);
      var p1 := if hit then Bump(p) else p;
      assert Players.BoxOf(p1) == Players.BoxOf(p);
      PlayerVsEnemiesDamage(p1, es[1..]);
      if hit {
        BumpThenAfter(p, Contacts(Players.BoxOf(p), es[1..]));
      }
    }
  }

  // ---------------------------------------------------------------------
  // Projectiles against enemies (js/game.js:344-359)
  // ---------------------------------------------------------------------

  predicate Strikes(pr: Projectiles.Projectile, b: Box)
  {
    Overlaps(Projectiles.BoxOf(pr), b)
  }

  /** The damage `pr` deals to an enemy occupying `b`. */
  function Hit(pr: Projectiles.Projectile, b: Box): int
  {
    if Strikes(pr, b) then pr.damage else 0
  }

  /** The total damage the shots `ps` deal to an enemy occupying `b`. */
  function DamageTo(ps: seq<Projectiles.Projectile>, b: Box): int
    decreases |ps|
  {
    if |ps| == 0 then 0 else Hit(ps[0], b) + DamageTo(ps[1..], b)
  }

  /** Some shot in `ps` strikes an enemy with hp `hp` at `b` and leaves it at
      0 or less, counting the damage of every shot up to and including it. */
  ghost predicate Lethal(ps: seq<Projectiles.Projectile>, hp: int, b: Box)
  {
    exists k :: 0 <= k < |ps| && Strikes(ps[k], b) && hp - DamageTo(ps[..k + 1], b) <= 0
  }

  /** Some enemy box in `bs` is struck by `pr`. */
  ghost predicate StrikesAny(pr: Projectiles.Projectile, bs: seq<Box>)
  {
    exists j :: 0 <= j < |bs| && Strikes(pr, bs[j])
  }

  function Boxes(es: seq<Enemies.Enemy>): (bs: seq<Box>)
    ensures |bs| == |es|
    ensures forall j :: 0 <= j < |es| ==> bs[j] == Enemies.BoxOf(es[j])
  {
    seq(|es|, j requires 0 <= j < |es| => Enemies.BoxOf(es[j]))
  }

  /** One shot against one enemy: a strike costs the enemy the shot's damage
      and flags it if that leaves its hp at 0 or less. */
  function Struck(pr: Projectiles.Projectile, e: Enemies.Enemy): (r: Enemies.Enemy)
    ensures Enemies.BoxOf(r) == Enemies.BoxOf(e)
    ensures r == e.(hp := e.hp - DamageTo([pr], Enemies.BoxOf(e)),
                    marked := e.marked || Lethal([pr], e.hp, Enemies.BoxOf(e)))
  {
    assert [pr][..1] == [pr] && [pr][1..] == [];
    var b := Enemies.BoxOf(e);
    e.(hp := e.hp - Hit(pr, b), marked := e.marked || (Strikes(pr, b) && e.hp - pr.damage <= 0))
  }

  /** The inner loop: one shot against every enemy, in order, with no early
      exit once the shot is flagged. */
  function Sweep(pr: Projectiles.Projectile, es: seq<Enemies.Enemy>): (r: (Projectiles.Projectile, seq<Enemies.Enemy>))
    ensures |r.1| == |es|
    ensures forall j :: 0 <= j < |es| ==> r.1[j] == Struck(pr, es[j])
    ensures r.0 == pr.(marked := pr.marked || StrikesAny(pr, Boxes(es)))
    decreases |es|
  {
    if |es| == 0 then (pr, [])
    else
      var b := Enemies.BoxOf(es[0]);
      var pr1 := pr.(marked := pr.marked || Strikes(pr, b));
      var rest := Sweep(pr1, es[1..]);
      StrikesAnyCons(pr, pr1, es);
      (rest.0, [Struck(pr, es[0])] + rest.1)
  }

  /** Whether a shot strikes some enemy is decided by the first enemy or the
      rest, and does not depend on the shot's own flag. */
  lemma StrikesAnyCons(pr: Projectiles.Projectile, pr1: Projectiles.Projectile, es: seq<Enemies.Enemy>)
    requires |es| > 0 && pr1 == pr.(marked := pr1.marked)
    ensures StrikesAny(pr, Boxes(es)) <==> Strikes(pr, Enemies.BoxOf(es[0])) || StrikesAny(pr1, Boxes(es[1..]))
  {
    var bs, bs1 := Boxes(es), Boxes(es[1..]);
    assert Projectiles.BoxOf(pr1) == Projectiles.BoxOf(pr);
    assert bs == [Enemies.BoxOf(es[0])] + bs1;
    if StrikesAny(pr1, bs1) {
      var j :| 0 <= j < |bs1| && Strikes(pr1, bs1[j]);
      assert Strikes(pr, bs[j + 1]);
    }
    if StrikesAny(pr, bs) && !Strikes(pr, Enemies.BoxOf(es[0])) {
      var j :| 0 <= j < |bs| && Strikes(pr, bs[j]);
      assert Strikes(pr1, bs1[j - 1]);
    }
  }

  /** The outer loop: every shot, in order, against every enemy. */
  function ProjectilesVsEnemies(ps: seq<Projectiles.Projectile>, es: seq<Enemies.Enemy>)
    : (r: (seq<Projectiles.Projectile>, seq<Enemies.Enemy>))
    ensures |r.0| == |ps| && |r.1| == |es|
    ensures Boxes(r.1) == Boxes(es)
    decreases |ps|
  {
    if |ps| == 0 then (ps, es)
    else
      var first := Sweep(ps[0], es);
      assert Boxes(first.1) == Boxes(es);
      var rest := ProjectilesVsEnemies(ps[1..], first.1);
      ([first.0] + rest.0, rest.1)
  }

  /** Splitting `Lethal` at the first shot: either the first shot strikes and
      is lethal by itself, or a later one is, starting from the hp the first
      shot left. */
  lemma LethalUnfold(ps: seq<Projectiles.Projectile>, hp: int, b: Box)
    requires |ps| > 0
    ensures Lethal(ps, hp, b) <==>
            (Strikes(ps[0], b) && hp - ps[0].damage <= 0) || Lethal(ps[1..], hp - Hit(ps[0], b), b)
  {
    forall k | 1 <= k < |ps|
      ensures DamageTo(ps[..k + 1], b) == Hit(ps[0], b) + DamageTo(ps[1..][..k], b)
    {
      assert ps[..k + 1][1..] == ps[1..][..k];
    }
    assert DamageTo(ps[..1], b) == Hit(ps[0], b) by {
      assert ps[..1][1..] == [];
    }
    if Lethal(ps[1..], hp - Hit(ps[0], b), b) {
      var k :| 0 <= k < |ps[1..]| && Strikes(ps[1..][k], b)
               && hp - Hit(ps[0], b) - DamageTo(ps[1..][..k + 1], b) <= 0;
      assert ps[k + 1] == ps[1..][k];
    }
    if Lethal(ps, hp, b) && !(Strikes(ps[0], b) && hp - ps[0].damage <= 0) {
      var k :| 0 <= k < |ps| && Strikes(ps[k], b) && hp - DamageTo(ps[..k + 1], b) <= 0;
      assert k > 0;
      assert ps[1..][k - 1] == ps[k];
    }
  }

  /** The effect of the nested pass on each enemy: its hp drops by the sum of
      the damage of every shot that strikes it (shots already flagged this
      frame included), and it is flagged if it was already or if some strike
      left it at 0 or less. */
  lemma {:induction false} ProjectilePassEnemies(ps: seq<Projectiles.Projectile>, es: seq<Enemies.Enemy>)
    ensures var r := ProjectilesVsEnemies(ps, es).1;
            forall j :: 0 <= j < |es| ==>
              r[j] == es[j].(hp := es[j].hp - DamageTo(ps, Enemies.BoxOf(es[j])),
                             marked := es[j].marked || Lethal(ps, es[j].hp, Enemies.BoxOf(es[j])))
    decreases |ps|
  {
    if |ps| > 0 {
      var first := Sweep(ps[0], es);
      ProjectilePassEnemies(ps[1..], first.1);
      var r := ProjectilesVsEnemies(ps, es).1;
      forall j | 0 <= j < |es|
        ensures r[j] == es[j].(hp := es[j].hp - DamageTo(ps, Enemies.BoxOf(es[j])),
                               marked := es[j].marked || Lethal(ps, es[j].hp, Enemies.BoxOf(es[j])))
      {
        assert first.1[j] == Struck(ps[0], es[j]);
        PassOneEnemy(ps, es[j], r[j]);
      }
    }
  }

  /** One enemy through the nested pass: struck by the first shot, then by
      the rest, is struck by all of them. */
  lemma PassOneEnemy(ps: seq<Projectiles.Projectile>, e: Enemies.Enemy, r: Enemies.Enemy)
    requires |ps| > 0
    requires var e1 := Struck(ps[0], e);
             r == e1.(hp := e1.hp - DamageTo(ps[1..], Enemies.BoxOf(e1)),
                      marked := e1.marked || Lethal(ps[1..], e1.hp, Enemies.BoxOf(e1)))
    ensures r == e.(hp := e.hp - DamageTo(ps, Enemies.BoxOf(e)),
                    marked := e.marked || Lethal(ps, e.hp, Enemies.BoxOf(e)))
  {
    LethalUnfold(ps, e.hp, Enemies.BoxOf(e));
  }

  /** The effect of the nested pass on each shot: it is flagged if it was
      already or if it strikes any enemy. */
  lemma {:induction false} ProjectilePassShots(ps: seq<Projectiles.Projectile>, es: seq<Enemies.Enemy>)
    ensures var r := ProjectilesVsEnemies(ps, es).0;
            forall i :: 0 <= i < |ps| ==> r[i] == ps[i].(marked := ps[i].marked || StrikesAny(ps[i], Boxes(es)))
    decreases |ps|
  {
    if |ps| > 0 {
      var first := Sweep(ps[0], es);
      ProjectilePassShots(ps[1..], first.1);
      var r := ProjectilesVsEnemies(ps, es).0;
      forall i | 0 <= i < |ps|
        ensures r[i] == ps[i].(marked := ps[i].marked || StrikesAny(ps[i], Boxes(es)))
      {
        if i > 0 {
          assert r[i] == ProjectilesVsEnemies(ps[1..], first.1).0[i - 1];
          assert ps[1..][i - 1] == ps[i];
        }
      }
    }
  }

  /** Some shot in `ps` strikes the box `b`. */
  ghost predicate StruckBy(ps: seq<Projectiles.Projectile>, b: Box)
  {
    exists k :: 0 <= k < |ps| && Strikes(ps[k], b)
  }

  lemma {:induction false} DamageNonNegative(ps: seq<Projectiles.Projectile>, b: Box)
    requires forall k :: 0 <= k < |ps| ==> ps[k].damage >= 0
    ensures DamageTo(ps, b) >= 0
    ensures !StruckBy(ps, b) ==> DamageTo(ps, b) == 0
    decreases |ps|
  {
    if |ps| > 0 {
      DamageNonNegative(ps[1..], b);
      if StruckBy(ps[1..], b) {
        var k :| 0 <= k < |ps[1..]| && Strikes(ps[1..][k], b);
        assert Strikes(ps[k + 1], b);
      }
    }
  }

  /** Since every shot deals non-negative damage, hp only falls during the
      pass, so "some strike was lethal" is the same as "the enemy was struck
      and ends at 0 or less". */
  lemma {:induction false} LethalIffStruckAndSpent(ps: seq<Projectiles.Projectile>, hp: int, b: Box)
    requires forall k :: 0 <= k < |ps| ==> ps[k].damage >= 0
    ensures Lethal(ps, hp, b) <==> StruckBy(ps, b) && hp - DamageTo(ps, b) <= 0
    decreases |ps|
  {
    if |ps| > 0 {
      LethalUnfold(ps, hp, b);
      LethalIffStruckAndSpent(ps[1..], hp - Hit(ps[0], b), b);
      DamageNonNegative(ps[1..], b);
      if StruckBy(ps[1..], b) {
        var k :| 0 <= k < |ps[1..]| && Strikes(ps[1..][k], b);
        assert Strikes(ps[k + 1], b);
      }
      if StruckBy(ps, b) && !Strikes(ps[0], b) {
        var k :| 0 <= k < |ps| && Strikes(ps[k], b);
        assert Strikes(ps[1..][k - 1], b);
      }
    }
  }

  // ---------------------------------------------------------------------
  // Player against items (js/game.js:362-380)
  // ---------------------------------------------------------------------

  predicate Reaches(p: Players.Player, it: Items.Item)
  {
    Overlaps(Players.BoxOf(p), Items.BoxOf(it))
  }

  /** The effect of one collected item. A heal adds 20 to hp up to its
      maximum and, while riding, 20 to the mount's hp up to its maximum. A
      cow starts (or restarts) the ride with the mount's hp at its maximum. */
  function Collect(p: Players.Player, it: Items.Item): (r: Players.Player)
    ensures Players.BoxOf(r) == Players.BoxOf(p)
    ensures it.kind == Items.Heal ==>
              && r.hp == Healed(p.hp, 1, p.maxHp)
              && r.isRidingCow == p.isRidingCow
              && r.cowHp == (if p.isRidingCow then Healed(p.cowHp, 1, p.maxCowHp) else p.cowHp)
    ensures it.kind == Items.Cow ==> r.hp == p.hp && r.isRidingCow && r.cowHp == p.maxCowHp
    ensures p.hp <= p.maxHp ==> r.hp <= p.maxHp
    ensures Players.Consistent(p) ==> Players.Consistent(r)
  {
    match it.kind
    case Heal =>
      p.(hp := MinInt(p.hp + HealAmount, p.maxHp),
         cowHp := if p.isRidingCow then MinInt(p.cowHp + HealAmount, p.maxCowHp) else p.cowHp)
    case Cow =>
      p.(isRidingCow := true, cowHp := p.maxCowHp)
  }

  /** The pass over the items, in order: every reached item is flagged and
      collected; nothing else changes. */
  function PlayerVsItems(p: Players.Player, items: seq<Items.Item>): (r: (Players.Player, seq<Items.Item>))
    ensures |r.1| == |items|
    ensures forall i :: 0 <= i < |items| ==> r.1[i] == items[i].(marked := items[i].marked || Reaches(p, items[i]))
    ensures r.0 == p.(hp := r.0.hp, cowHp := r.0.cowHp, isRidingCow := r.0.isRidingCow)
    ensures p.hp <= p.maxHp ==> r.0.hp <= p.maxHp
    ensures Players.Consistent(p) ==> Players.Consistent(r.0)
    decreases |items|
  {
    if |items| == 0 then (p, [])
    else
      var hit := Reaches(p, items[0]);
      var rest := PlayerVsItems(if hit then Collect(p, items[0]) else p, items[1..]);
      (rest.0, [items[0].(marked := items[0].marked || hit)] + rest.1)
  }

  /** How many heal items in `items` the box `b` reaches. */
  function Heals(b: Box, items: seq<Items.Item>): nat
    decreases |items|
  {
    if |items| == 0 then 0
    else (if Overlaps(b, Items.BoxOf(items[0])) && items[0].kind == Items.Heal then 1 else 0) + Heals(b, items[1..])
  }

  /** The box `b` reaches some cow item in `items`. */
  ghost predicate ReachesCow(b: Box, items: seq<Items.Item>)
  {
    exists i :: 0 <= i < |items| && Overlaps(b, Items.BoxOf(items[i])) && items[i].kind == Items.Cow
  }

  /** `n` heals of 20 applied to `v`, each capped at `cap`. */
  function Healed(v: int, n: nat, cap: int): int
  {
    if n == 0 then v else MinInt(v + HealAmount * n, cap)
  }

  /** Whether a cow is reached is decided by the first item or the rest. */
  lemma ReachesCowCons(b: Box, items: seq<Items.Item>)
    requires |items| > 0
    ensures ReachesCow(b, items) <==>
            (Overlaps(b, Items.BoxOf(items[0])) && items[0].kind == Items.Cow) || ReachesCow(b, items[1..])
  {
    if ReachesCow(b, items[1..]) {
      var i :| 0 <= i < |items[1..]| && Overlaps(b, Items.BoxOf(items[1..][i])) && items[1..][i].kind == Items.Cow;
      assert items[i + 1] == items[1..][i];
    }
    if ReachesCow(b, items) && !(Overlaps(b, Items.BoxOf(items[0])) && items[0].kind == Items.Cow) {
      var i :| 0 <= i < |items| && Overlaps(b, Items.BoxOf(items[i])) && items[i].kind == Items.Cow;
      assert items[1..][i - 1] == items[i];
    }
  }

  /** The item pass's effect on hp in closed form: every reached heal adds 20,
      capped at the maximum, so a heal never lifts hp above it. */
  lemma {:induction false} PlayerVsItemsHp(p: Players.Player, items: seq<Items.Item>)
    ensures PlayerVsItems(p, items).0.hp == Healed(p.hp, Heals(Players.BoxOf(p), items), p.maxHp)
    decreases |items|
  {
    if |items| > 0 {
      var hit := Reaches(p, items[0]);
      var p1 := if hit then Collect(p, items[0]) else p;
      assert Players.BoxOf(p1) == Players.BoxOf(p);
      PlayerVsItemsHp(p1, items[1..]);
    }
  }

  /** The item pass's effect on the mount in closed form. If a cow was
      reached the player ends riding with a full mount, since heals after it
      cannot raise the mount past its maximum. Otherwise the ride is
      unchanged and, while riding, the mount gets every heal, capped; on
      foot its hp is untouched. */
  lemma {:induction false} PlayerVsItemsMount(p: Players.Player, items: seq<Items.Item>)
    ensures var r, b := PlayerVsItems(p, items).0, Players.BoxOf(p);
            && (ReachesCow(b, items) ==> r.isRidingCow && r.cowHp == p.maxCowHp)
            && (!ReachesCow(b, items) ==> r.isRidingCow == p.isRidingCow)
            && (!ReachesCow(b, items) && p.isRidingCow ==> r.cowHp == Healed(p.cowHp, Heals(b, items), p.maxCowHp))
            && (!ReachesCow(b, items) && !p.isRidingCow ==> r.cowHp == p.cowHp)
    decreases |items|
  {
    if |items| > 0 {
      var b := Players.BoxOf(p);
      var hit := Reaches(p, items[0]);
      var p1 := if hit then Collect(p, items[0]) else p;
      assert Players.BoxOf(p1) == b;
      PlayerVsItemsMount(p1, items[1..]);
      ReachesCowCons(b, items);
    }
  }

  /** Heals never raise hp past its maximum, and from a value at most the
      maximum they never lower it. */
  lemma HealedBounds(v: int, n: nat, cap: int)
    requires v <= cap
    ensures v <= Healed(v, n, cap) <= cap
  {
  }
}

=== FILE: enemies.dfy ===
/** The pigeons (`Enemy`, js/game.js:192-214). */
module Enemies {
  import opened Geometry
  import opened Chance

  const Size: real := 40.0
  const StartHp: int := 30
  const BaseSpeed: real := 0.2
  const SpeedJitter: real := 0.1
  /** Spawn distance beyond the right edge of the view, at most. */
  const SpawnSpread: real := 200.0
  /** Clearance kept above the ground when choosing a spawn height. */
  const GroundClearance: real := 50.0
  /** How far behind the camera an enemy may fall before it is dropped. */
  const BehindMargin: real := 100.0

  datatype Enemy = Enemy(x: real, y: real, vx: real, hp: int, marked: bool)

  function BoxOf(e: Enemy): Box
  {
    Box(e.x, e.y, Size, Size)
  }

  /** A new enemy just off the right edge of the view (js/game.js:193-205),
      from three random draws: horizontal offset, height and speed jitter. */
  function Spawn(cameraX: real, viewWidth: real, viewHeight: real, dx: Draw, dy: Draw, ds: Draw): (e: Enemy)
    ensures cameraX + viewWidth <= e.x < cameraX + viewWidth + SpawnSpread
    ensures viewHeight - Size - GroundClearance >= 0.0 ==> 0.0 <= e.y <= viewHeight - Size - GroundClearance
    ensures -(BaseSpeed + SpeedJitter) < e.vx <= -BaseSpeed
    ensures e.hp == StartHp && !e.marked
  {
    var speed := BaseSpeed + ds * SpeedJitter;
    var room := viewHeight - Size - GroundClearance;
    Scale(dx, SpawnSpread);
    Scale(dy, room);
    Scale(ds, SpeedJitter);
    Enemy(cameraX + viewWidth + dx * SpawnSpread, dy * room, -speed, StartHp, false)
  }

  /** Fly left by velocity times elapsed time; flag the enemy once it is more
      than 100 pixels behind the camera (js/game.js:207-214). */
  function Update(e: Enemy, dt: real, cameraX: real): (r: Enemy)
    ensures e.vx <= 0.0 && dt >= 0.0 ==> r.x <= e.x
    ensures r.x == e.x + e.vx * dt
    ensures r.marked <==> e.marked || r.x < cameraX - BehindMargin
    ensures r == e.(x := r.x, marked := r.marked)
  {
    var x := e.x + e.vx * dt;
    e.(x := x, marked := e.marked || x < cameraX - BehindMargin)
  }

  /** For an enemy flying left and a camera that stays put, two updates in a
      row are the same as one update over the whole elapsed time: the
      positions add up, and the enemy cannot cross back over the removal
      line in between. */
  lemma UpdateTwice(e: Enemy, a: real, b: real, cameraX: real)
    requires e.vx <= 0.0 && a >= 0.0 && b >= 0.0
    ensures Update(Update(e, a, cameraX), b, cameraX) == Update(e, a + b, cameraX)
  {
    assert e.vx * (a + b) == e.vx * a + e.vx * b;
    assert e.vx * b <= 0.0 by {
      assert -e.vx >= 0.0;
      assert (-e.vx) * b >= 0.0;
    }
  }
}

=== FILE: filtering.dfy ===
/** Removal of flagged entities: `array.filter(x => !x.markedForDeletion)`
    (js/game.js:402, 413, 424). */
module Filtering {

  /** The elements of `s` that satisfy `keep`, in their order in `s`. */
  function Filter<T>(s: seq<T>, keep: T -> bool): (r: seq<T>)
    ensures |r| <= |s|
    ensures forall i :: 0 <= i < |r| ==> r[i] in s && keep(r[i])
    ensures forall j :: 0 <= j < |s| && keep(s[j]) ==> s[j] in r
    decreases |s|
  {
    if |s| == 0 then []
    else (if keep(s[0]) then [s[0]] else []) + Filter(s[1..], keep)
  }

  /** The positions of `s` whose elements `keep` accepts, in increasing order. */
  function Kept<T>(s: seq<T>, keep: T -> bool): seq<nat>
    decreases |s|
  {
    if |s| == 0 then []
    else
      var rest := Shift(Kept(s[1..], keep));
      if keep(s[0]) then [0] + rest else rest
  }

  function Shift(idx: seq<nat>): (r: seq<nat>)
    ensures |r| == |idx|
    ensures forall i :: 0 <= i < |idx| ==> r[i] == idx[i] + 1
  {
    seq(|idx|, i requires 0 <= i < |idx| => idx[i] + 1)
  }

  /** `Kept` lists as many positions as the filter keeps elements, and they
      pick out the result element by element. */
  lemma {:induction false} KeptPicksFilter<T>(s: seq<T>, keep: T -> bool)
    ensures |Kept(s, keep)| == |Filter(s, keep)|
    ensures forall i :: 0 <= i < |Kept(s, keep)| ==>
              Kept(s, keep)[i] < |s| && Filter(s, keep)[i] == s[Kept(s, keep)[i]]
    decreases |s|
  {
    if |s| > 0 {
      KeptPicksFilter(s[1..], keep);
      var idx1, r1 := Kept(s[1..], keep), Filter(s[1..], keep);
      var sh := Shift(idx1);
      forall i | 0 <= i < |sh|
        ensures sh[i] < |s| && r1[i] == s[sh[i]]
      {
        assert s[1..][idx1[i]] == s[sh[i]];
      }
      if keep(s[0]) {
        var idx, r := Kept(s, keep), Filter(s, keep);
        assert idx == [0] + sh && r == [s[0]] + r1;
        forall i | 0 <= i < |idx|
          ensures idx[i] < |s| && r[i] == s[idx[i]]
        {
          if i > 0 {
            assert idx[i] == sh[i - 1] && r[i] == r1[i - 1];
          }
        }
      }
    }
  }

  /** The positions `Kept` lists are strictly increasing and in range: the
      filter keeps the original order. */
  lemma {:induction false} KeptIncreasing<T>(s: seq<T>, keep: T -> bool)
    ensures forall i :: 0 <= i < |Kept(s, keep)| ==> Kept(s, keep)[i] < |s|
    ensures forall i, j :: 0 <= i < j < |Kept(s, keep)| ==> Kept(s, keep)[i] < Kept(s, keep)[j]
    decreases |s|
  {
    if |s| > 0 {
      KeptIncreasing(s[1..], keep);
      var sh := Shift(Kept(s[1..], keep));
      if keep(s[0]) {
        var idx := Kept(s, keep);
        assert idx == [0] + sh;
        forall i, j | 0 <= i < j < |idx|
          ensures idx[i] < idx[j]
        {
          assert idx[j] == sh[j - 1];
          if i > 0 {
            assert idx[i] == sh[i - 1];
          }
        }
      }
    }
  }

  /** Every position whose element `keep` accepts is listed by `Kept`: the
      filter drops only rejected elements. */
  lemma {:induction false} KeptComplete<T>(s: seq<T>, keep: T -> bool)
    ensures forall j :: 0 <= j < |s| && keep(s[j]) ==> j in Kept(s, keep)
    decreases |s|
  {
    if |s| > 0 {
      KeptComplete(s[1..], keep);
      var idx1 := Kept(s[1..], keep);
      var sh := Shift(idx1);
      forall j | 1 <= j < |s| && keep(s[j])
        ensures j in sh
      {
        assert s[1..][j - 1] == s[j];
        var i :| 0 <= i < |idx1| && idx1[i] == j - 1;
        assert sh[i] == j;
      }
    }
  }

  /** Filtering distributes over concatenation: the part of the result that
      comes from `a` precedes the part that comes from `b`. */
  lemma {:induction false} FilterAppend<T>(a: seq<T>, b: seq<T>, keep: T -> bool)
    ensures Filter(a + b, keep) == Filter(a, keep) + Filter(b, keep)
    decreases |a|
  {
    if |a| > 0 {
      assert (a + b)[0] == a[0];
      assert (a + b)[1..] == a[1..] + b;
      FilterAppend(a[1..], b, keep);
    } else {
      assert a + b == b;
    }
  }

  /** A sequence in which every element is kept passes through unchanged. */
  lemma {:induction false} FilterAllKept<T>(s: seq<T>, keep: T -> bool)
    requires forall i :: 0 <= i < |s| ==> keep(s[i])
    ensures Filter(s, keep) == s
    decreases |s|
  {
    if |s| > 0 {
      FilterAllKept(s[1..], keep);
      assert [s[0]] + s[1..] == s;
    }
  }

  /** Filtering twice is filtering once. */
  lemma FilterIdempotent<T>(s: seq<T>, keep: T -> bool)
    ensures Filter(Filter(s, keep), keep) == Filter(s, keep)
  {
    var r := Filter(s, keep);
    forall i | 0 <= i < |r|
      ensures keep(r[i])
    {
      assert r[i] in r;
    }
    FilterAllKept(r, keep);
  }
}

=== FILE: geometry.dfy ===
/** Points, velocities and the axis-aligned boxes every collision test is made of. */
module Geometry {

  /** A pair of world coordinates, or a velocity in pixels per millisecond. */
  datatype Vec = Vec(x: real, y: real)

  /** An axis-aligned rectangle: top-left corner `(x, y)`, width `w`, height `h`. */
  datatype Box = Box(x: real, y: real, w: real, h: real)

  /** The game's AABB test (js/game.js:321-325, 346-350, 363-367): two boxes
      overlap when their projections on both axes overlap, strictly. Boxes
      that only touch along an edge do not overlap. For boxes of positive
      size this says that the two boxes' horizontal intervals and vertical
      intervals each have a non-empty open intersection. */
  predicate Overlaps(a: Box, b: Box)
    ensures a.w > 0.0 && a.h > 0.0 && b.w > 0.0 && b.h > 0.0 ==>
            (Overlaps(a, b) <==>
              MaxReal(a.x, b.x) < MinReal(a.x + a.w, b.x + b.w) &&
              MaxReal(a.y, b.y) < MinReal(a.y + a.h, b.y + b.h))
  {
    && a.x < b.x + b.w
    && a.x + a.w > b.x
    && a.y < b.y + b.h
    && a.y + a.h > b.y
  }

  function MaxReal(a: real, b: real): real
  {
    if a >= b then a else b
  }

  function MinReal(a: real, b: real): real
  {
    if a <= b then a else b
  }

  function MinInt(a: int, b: int): int
  {
    if a <= b then a else b
  }
}

=== FILE: input.dfy ===
/** The input state shared by the device listeners and the frame loop
    (`InputHandler`, js/game.js:2-82). The listeners themselves are host
    wiring; their effect is modelled as the writes `SetKey` and `Tap`. */
module Input {
  import opened Wrappers
  import opened Geometry

  datatype Dir = Up | Down | Left | Right

  /** The four direction flags. */
  datatype Keys = Keys(up: bool, down: bool, left: bool, right: bool)

  /** Direction flags plus at most one pending attack point, in screen coordinates. */
  datatype InputState = InputState(keys: Keys, touchAttack: Option<Vec>)

  /** No key held and no attack pending (js/game.js:4-10). */
  const Initial: InputState := InputState(Keys(false, false, false, false), None)

  function Held(k: Keys, d: Dir): bool
  {
    match d
    case Up => k.up
    case Down => k.down
    case Left => k.left
    case Right => k.right
  }

  /** A key press or release, from the keyboard or the on-screen pad
      (js/game.js:17-29, 40-42): the named flag takes the new state. */
  function SetKey(s: InputState, d: Dir, state: bool): (r: InputState)
    ensures Held(r.keys, d) == state
    ensures forall d' :: d' != d ==> Held(r.keys, d') == Held(s.keys, d')
    ensures r.touchAttack == s.touchAttack
  {
    match d
    case Up => s.(keys := s.keys.(up := state))
    case Down => s.(keys := s.keys.(down := state))
    case Left => s.(keys := s.keys.(left := state))
    case Right => s.(keys := s.keys.(right := state))
  }

  /** A tap or click in the play area (js/game.js:61-73): it overwrites any
      attack still pending. */
  function Tap(s: InputState, at: Vec): (r: InputState)
    ensures r.touchAttack == Some(at)
    ensures r.keys == s.keys
  {
    s.(touchAttack := Some(at))
  }

  /** One listener firing between two frames: a key or pad button changing
      state, or a tap in the play area. */
  datatype Event = KeyChange(dir: Dir, state: bool) | TapAt(at: Vec)

  function Apply(s: InputState, e: Event): InputState
  {
    match e
    case KeyChange(d, state) => SetKey(s, d, state)
    case TapAt(at) => Tap(s, at)
  }

  /** The state the last change of key `d` in `es` sets it to, if any. */
  function LastKey(es: seq<Event>, d: Dir): Option<bool>
  {
    if |es| == 0 then None
    else
      var e := es[|es| - 1];
      if e.KeyChange? && e.dir == d then Some(e.state) else LastKey(es[..|es| - 1], d)
  }

  /** The point of the last tap in `es`, if any. */
  function LastTap(es: seq<Event>): Option<Vec>
  {
    if |es| == 0 then None
    else
      var e := es[|es| - 1];
      if e.TapAt? then Some(e.at) else LastTap(es[..|es| - 1])
  }

  /** The listeners firing in order between two frames. The outcome depends
      only on the last change of each key and the last tap: each flag is set
      by its last change or keeps its state, and the pending attack is the
      last tap or the one already pending. */
  function ApplyAll(s: InputState, es: seq<Event>): (r: InputState)
    ensures r.touchAttack == (if LastTap(es).Some? then LastTap(es) else s.touchAttack)
    ensures forall d :: Held(r.keys, d) == (if LastKey(es, d).Some? then LastKey(es, d).value else Held(s.keys, d))
    decreases |es|
  {
    if |es| == 0 then s
    else Apply(ApplyAll(s, es[..|es| - 1]), es[|es| - 1])
  }

  /** Delivering the events in two batches is delivering them at once. */
  lemma {:induction false} ApplyAllAppend(s: InputState, a: seq<Event>, b: seq<Event>)
    ensures ApplyAll(s, a + b) == ApplyAll(ApplyAll(s, a), b)
    decreases |b|
  {
    if |b| == 0 {
      assert a + b == a;
    } else {
      var ab := a + b;
      assert ab[..|ab| - 1] == a + b[..|b| - 1];
      assert ab[|ab| - 1] == b[|b| - 1];
      ApplyAllAppend(s, a, b[..|b| - 1]);
    }
  }

  /** Take-and-clear of the pending attack (js/game.js:76-81). */
  function GetAttack(s: InputState): (r: (Option<Vec>, InputState))
    ensures r.0 == s.touchAttack
    ensures r.1.touchAttack == None
    ensures r.1.keys == s.keys
  {
    (s.touchAttack, s.(touchAttack := None))
  }

  /** With no tap in between, a second `GetAttack` yields nothing: each tap
      produces at most one attack. */
  lemma GetAttackTwice(s: InputState)
    ensures GetAttack(GetAttack(s).1).0 == None
    ensures GetAttack(GetAttack(s).1).1 == GetAttack(s).1
  {
  }

  /** Taps are not queued: of two taps before a frame, only the last one is
      delivered, and key changes in between do not disturb it. */
  lemma LastTapWins(s: InputState, a: Vec, b: Vec, d: Dir, state: bool)
    ensures GetAttack(Tap(Tap(s, a), b)).0 == Some(b)
    ensures GetAttack(SetKey(Tap(s, a), d, state)).0 == Some(a)
    ensures GetAttack(Tap(SetKey(Tap(s, a), d, state), b)).0 == Some(b)
  {
  }
}

=== FILE: items.dfy ===
/** Pickups (`Item`, js/game.js:228-237) and their spawn rule (js/game.js:405-410). */
module Items {
  import opened Geometry
  import opened Chance

  const Size: real := 30.0
  /** A draw above this value yields a cow; otherwise a heal. */
  const CowThreshold: real := 0.7

  datatype Kind = Heal | Cow

  datatype Item = Item(x: real, y: real, kind: Kind, marked: bool)

  function BoxOf(i: Item): Box
  {
    Box(i.x, i.y, Size, Size)
  }

  /** The item placed at the threshold `nextItemX`, 100 pixels past it, in a
      band 100 to 200 pixels above the bottom edge; `kindDraw` and `yDraw`
      are draws of `Math.random()`. */
  function Spawn(nextItemX: real, viewHeight: real, kindDraw: Draw, yDraw: Draw): (i: Item)
    ensures i.x == nextItemX + 100.0
    ensures viewHeight - 200.0 < i.y <= viewHeight - 100.0
    ensures i.kind == Cow <==> kindDraw > CowThreshold
    ensures !i.marked
  {
    Scale(yDraw, 100.0);
    Item(nextItemX + 100.0, viewHeight - 100.0 - yDraw * 100.0,
         if kindDraw > CowThreshold then Cow else Heal, false)
  }
}

=== FILE: players.dfy ===
/** The player character (`Player`, js/game.js:84-131): movement from the
    direction keys, the screen clamp, and the health fields the collision
    passes act on. */
module Players {
  import opened Geometry
  import Input

  const Width: real := 50.0
  const Height: real := 50.0
  /** Pixels per millisecond along each axis. */
  const Speed: real := 0.3
  const StartHp: int := 100
  const StartCowHp: int := 100

  /** `cowHp` and `isRidingCow` are the mount ("cow") state; `vx`/`vy` keep
      the velocity chosen by the last update. */
  datatype Player = Player(
    x: real, y: real, vx: real, vy: real,
    hp: int, maxHp: int,
    cowHp: int, maxCowHp: int, isRidingCow: bool)

  /** The health bookkeeping the game keeps consistent: hp never above its
      maximum, and the mount's hp positive and at most its maximum while
      riding, 0 otherwise. The player's hp may go below 0. */
  predicate Consistent(p: Player)
  {
    && p.hp <= p.maxHp
    && p.maxCowHp > 0
    && (if p.isRidingCow then 0 < p.cowHp <= p.maxCowHp else p.cowHp == 0)
  }

  function BoxOf(p: Player): Box
  {
    Box(p.x, p.y, Width, Height)
  }

  /** A fresh player (js/game.js:85-100): x = 100, 100 pixels above the
      bottom edge, full health, not riding. */
  function Spawn(viewHeight: real): (p: Player)
    ensures p.x == 100.0 && p.y + Height + 100.0 == viewHeight
    ensures p.hp == p.maxHp == StartHp && p.maxCowHp == StartCowHp
    ensures !p.isRidingCow && p.cowHp == 0
    ensures Consistent(p)
  {
    Player(100.0, viewHeight - Height - 100.0, 0.0, 0.0, StartHp, StartHp, 0, StartCowHp, false)
  }

  /** One axis of the velocity choice: the key tested first (`pos`, i.e.
      right or down) wins when both are held. */
  function AxisVelocity(pos: bool, neg: bool): (v: real)
    ensures v > 0.0 <==> pos
    ensures v < 0.0 <==> !pos && neg
    ensures v == Speed || v == -Speed || v == 0.0
  {
    if pos then Speed else if neg then -Speed else 0.0
  }

  /** The per-frame update (js/game.js:102-131): pick the velocity, move by
      velocity times elapsed time, then clamp x to 0 or more and y to
      `[0, viewHeight - Height]`, the lower bound applied first. */
  function Update(p: Player, keys: Input.Keys, dt: real, viewHeight: real): (r: Player)
    ensures r.vx == AxisVelocity(keys.right, keys.left)
    ensures r.vy == AxisVelocity(keys.down, keys.up)
    ensures r.x >= 0.0 && r.x >= p.x + r.vx * dt
    ensures p.x + r.vx * dt >= 0.0 ==> r.x == p.x + r.vx * dt
    ensures r.y <= viewHeight - Height
    ensures viewHeight >= Height ==> 0.0 <= r.y
    ensures 0.0 <= p.y + r.vy * dt <= viewHeight - Height ==> r.y == p.y + r.vy * dt
    ensures p.x + r.vx * dt < 0.0 ==> r.x == 0.0
    ensures p.y + r.vy * dt > viewHeight - Height ==> r.y == viewHeight - Height
    ensures viewHeight >= Height && p.y + r.vy * dt < 0.0 ==> r.y == 0.0
    ensures viewHeight < Height ==> r.y == viewHeight - Height
    ensures r.hp == p.hp && r.maxHp == p.maxHp
    ensures r.cowHp == p.cowHp && r.maxCowHp == p.maxCowHp && r.isRidingCow == p.isRidingCow
  {
    var vx := AxisVelocity(keys.right, keys.left);
    var vy := AxisVelocity(keys.down, keys.up);
    var x := p.x + vx * dt;
    var y := p.y + vy * dt;
    var x1 := if x < 0.0 then 0.0 else x;
    var y1 := if y < 0.0 then 0.0 else y;
    var y2 := if y1 > viewHeight - Height then viewHeight - Height else y1;
    var r := p.(x := x1, y := y2, vx := vx, vy := vy);
    assert r.vx * dt == vx * dt && r.vy * dt == vy * dt;
    r
  }

  /** Right wins over left: while right is held, the left key has no effect
      on the update at all; likewise down over up. */
  lemma RightAndDownWin(p: Player, keys: Input.Keys, dt: real, viewHeight: real, b: bool)
    ensures keys.right ==> Update(p, keys.(left := b), dt, viewHeight) == Update(p, keys, dt, viewHeight)
    ensures keys.down ==> Update(p, keys.(up := b), dt, viewHeight) == Update(p, keys, dt, viewHeight)
  {
  }

  /** The player is on screen: never left of the world origin and, when the
      view is at least as tall as the player, within its height. */
  predicate InBounds(p: Player, viewHeight: real)
  {
    p.x >= 0.0 && 0.0 <= p.y <= viewHeight - Height
  }

  /** Every update ends in bounds when the view is at least player-tall,
      whatever the start position, keys or elapsed time. */
  lemma UpdateInBounds(p: Player, keys: Input.Keys, dt: real, viewHeight: real)
    requires viewHeight >= Height
    ensures InBounds(Update(p, keys, dt, viewHeight), viewHeight)
  {
  }

  /** With no key held, an in-bounds player stays exactly where it is. */
  lemma IdleStaysPut(p: Player, dt: real, viewHeight: real)
    requires InBounds(p, viewHeight)
    ensures var r := Update(p, Input.Keys(false, false, false, false), dt, viewHeight);
            r.x == p.x && r.y == p.y && r.vx == 0.0 && r.vy == 0.0
  {
  }
}

=== FILE: projectiles.dfy ===
/** Shots fired at an attack point (`Projectile`, js/game.js:151-182). */
module Projectiles {
  import opened Geometry

  const NormalSize: real := 10.0
  const NormalDamage: int := 20
  const PowerfulSize: real := 20.0
  const PowerfulDamage: int := 50

  /** A square shot of side `size`; `marked` is the deletion flag. */
  datatype Projectile = Projectile(
    x: real, y: real, vx: real, vy: real, size: real, damage: int, marked: bool)

  function BoxOf(p: Projectile): Box
  {
    Box(p.x, p.y, p.size, p.size)
  }

  /** The two tiers a projectile can belong to. */
  predicate Tiered(p: Projectile)
  {
    || (p.size == NormalSize && p.damage == NormalDamage)
    || (p.size == PowerfulSize && p.damage == PowerfulDamage)
  }

  /** A new shot at `(x, y)` (js/game.js:152-169). The powerful tier is used
      while the player rides the cow. The velocity is given: js/game.js
      derives it by normalising the aim vector. */
  function Spawn(x: real, y: real, velocity: Vec, isPowerful: bool): (p: Projectile)
    ensures Tiered(p) && p.damage > 0
    ensures isPowerful <==> p.damage == PowerfulDamage
    ensures isPowerful <==> p.size == PowerfulSize
    ensures p.x == x && p.y == y && p.vx == velocity.x && p.vy == velocity.y
    ensures !p.marked
  {
    Projectile(x, y, velocity.x, velocity.y,
               if isPowerful then PowerfulSize else NormalSize,
               if isPowerful then PowerfulDamage else NormalDamage,
               false)
  }

  /** Outside the visible strip: right of or left of the camera's view, or
      below or above the canvas; that is, outside the closed rectangle the
      camera shows. */
  predicate OffScreen(x: real, y: real, cameraX: real, viewWidth: real, viewHeight: real)
    ensures OffScreen(x, y, cameraX, viewWidth, viewHeight) <==>
              !(cameraX <= x <= cameraX + viewWidth && 0.0 <= y <= viewHeight)
  {
    x > cameraX + viewWidth || x < cameraX || y > viewHeight || y < 0.0
  }

  /** Move by velocity times elapsed time, then flag the shot once it has
      left the view (js/game.js:171-182). A flag, once set, stays set. */
  function Update(p: Projectile, dt: real, cameraX: real, viewWidth: real, viewHeight: real): (r: Projectile)
    ensures r.x == p.x + p.vx * dt && r.y == p.y + p.vy * dt
    ensures r.marked <==> p.marked || OffScreen(r.x, r.y, cameraX, viewWidth, viewHeight)
    ensures r == p.(x := r.x, y := r.y, marked := r.marked)
  {
    var x := p.x + p.vx * dt;
    var y := p.y + p.vy * dt;
    p.(x := x, y := y, marked := p.marked || OffScreen(x, y, cameraX, viewWidth, viewHeight))
  }

  /** Updating never changes a shot's tier. */
  lemma UpdateKeepsTier(p: Projectile, dt: real, cameraX: real, viewWidth: real, viewHeight: real)
    requires Tiered(p)
    ensures Tiered(Update(p, dt, cameraX, viewWidth, viewHeight))
  {
  }
}

=== FILE: scenarios.dfy ===
/** Concrete situations of play, each proved from the
    general model. */
module Scenarios {
  import opened Geometry
  import Players
  import Projectiles
  import Enemies
  import Items
  import Collisions
  import World

  /** A 30 hp enemy struck by two normal shots in one frame: the first leaves
      it at 10, the second at -10, and that second strike flags it. */
  lemma TwoNormalShotsKill(e: Enemies.Enemy, p1: Projectiles.Projectile, p2: Projectiles.Projectile)
    requires e.hp == 30 && !e.marked
    requires p1.damage == Projectiles.NormalDamage && p2.damage == Projectiles.NormalDamage
    requires Collisions.Strikes(p1, Enemies.BoxOf(e)) && Collisions.Strikes(p2, Enemies.BoxOf(e))
    ensures var r := Collisions.ProjectilesVsEnemies([p1, p2], [e]).1;
            r[0].hp == -10 && r[0].marked
    ensures var r := Collisions.ProjectilesVsEnemies([p1], [e]).1;
            r[0].hp == 10 && !r[0].marked
  {
    Collisions.ProjectilePassEnemies([p1, p2], [e]);
    Collisions.ProjectilePassEnemies([p1], [e]);
    var b := Enemies.BoxOf(e);
    Collisions.LethalIffStruckAndSpent([p1, p2], 30, b);
    Collisions.LethalIffStruckAndSpent([p1], 30, b);
    assert Collisions.StruckBy([p1, p2], b) by {
      assert Collisions.Strikes([p1, p2][0], b);
    }
  }

  /** A player on foot at 10 hp touching two enemies in one frame ends the
      frame at -10 hp, and the judgement that follows loses the game. */
  lemma TwoContactsLose(g: World.Game, e1: Enemies.Enemy, e2: Enemies.Enemy)
    requires g.status == World.Playing && g.player.x < 50000.0
    requires g.player.hp == 10 && !g.player.isRidingCow
    requires Collisions.Touching(g.player, e1) && Collisions.Touching(g.player, e2)
    ensures var p := Collisions.PlayerVsEnemies(g.player, [e1, e2]).0;
            p.hp == -10 && World.Judge(g.(player := p)).status == World.Lost
  {
    Collisions.PlayerVsEnemiesDamage(g.player, [e1, e2]);
    var b := Players.BoxOf(g.player);
    assert Collisions.Contacts(b, [e1, e2]) == 2 by {
      assert [e1, e2][1..] == [e2] && [e2][1..] == [];
      assert Collisions.Contacts(b, [e2]) == 1;
    }
  }

  /** A heal picked up at 90 of 100 hp yields 100, not 110. */
  lemma HealCapsAtMax(p: Players.Player, it: Items.Item)
    requires p.hp == 90 && p.maxHp == 100
    requires it.kind == Items.Heal && Collisions.Reaches(p, it)
    ensures Collisions.PlayerVsItems(p, [it]).0.hp == 100
  {
  }

  /** A cow picked up while already riding refills the mount to its maximum
      rather than adding to it. */
  lemma CowRefillsMount(p: Players.Player, it: Items.Item)
    requires p.isRidingCow && p.cowHp == 40 && p.maxCowHp == 100
    requires it.kind == Items.Cow && Collisions.Reaches(p, it)
    ensures var r := Collisions.PlayerVsItems(p, [it]).0;
            r.isRidingCow && r.cowHp == 100
  {
  }

  /** The mount at 15 hp absorbs two contacts: the first leaves it at 5, the
      second ends the ride, and a third reaches the player's own hp. */
  lemma MountAbsorbsThenBreaks(p: Players.Player)
    requires p.isRidingCow && p.cowHp == 15
    ensures Collisions.AfterBumps(p, 1).isRidingCow && Collisions.AfterBumps(p, 1).cowHp == 5
    ensures !Collisions.AfterBumps(p, 2).isRidingCow && Collisions.AfterBumps(p, 2).cowHp == 0
    ensures Collisions.AfterBumps(p, 2).hp == p.hp
    ensures Collisions.AfterBumps(p, 3).hp == p.hp - 10
  {
  }
}

=== FILE: world.dfy ===
/** The game state and its per-frame step (`Game`, js/game.js:273-498),
    without drawing, DOM updates, the resize handler or the animation-frame
    scheduling. Random draws and each shot's velocity are parameters. */
module World {
  import opened Wrappers
  import opened Geometry
  import opened Chance
  import Input
  import Players
  import Projectiles
  import Enemies
  import Items
  import Cameras
  import Collisions
  import Filtering

  /** Milliseconds between enemy spawns. */
  const EnemyInterval: real := 2000.0
  const FirstItemX: real := 500.0
  /** Least distance between consecutive item thresholds, and its jitter. */
  const ItemSpacing: real := 1500.0
  const ItemSpacingJitter: real := 1000.0
  const PixelsPerMetre: real := 100.0
  /** Distance in metres that wins the game. */
  const WinDistance: int := 500

  /** `gameOver` is `status != Playing`; which end screen shows is recorded
      as `Won` or `Lost`. */
  datatype Status = Playing | Won | Lost

  datatype Game = Game(
    width: real, height: real,
    input: Input.InputState,
    player: Players.Player,
    camera: Cameras.Camera,
    enemies: seq<Enemies.Enemy>,
    projectiles: seq<Projectiles.Projectile>,
    items: seq<Items.Item>,
    nextItemX: real,
    enemyTimer: real,
    status: Status,
    lastTime: real)

  /** The `Math.random()` draws one frame may consume. */
  datatype Draws = Draws(
    enemyX: Draw, enemyY: Draw, enemySpeed: Draw,
    itemKind: Draw, itemY: Draw, itemGap: Draw)

  /** The state the game begins in, for a canvas of the given size
      (js/game.js:274-299). */
  function Init(width: real, height: real): (g: Game)
    ensures Inv(g) && g.status == Playing
    ensures g.enemies == [] && g.projectiles == [] && g.items == []
  {
    Game(width, height, Input.Initial, Players.Spawn(height), Cameras.Initial,
         [], [], [], FirstItemX, 0.0, Playing, 0.0)
  }

  /** What the game keeps true from frame to frame: consistent health and
      mount, player and camera never left of the origin, every shot in one
      of its two tiers, and the item threshold past its start. */
  predicate Inv(g: Game)
  {
    && Players.Consistent(g.player)
    && g.player.x >= 0.0
    && g.camera.x >= 0.0
    && (forall i :: 0 <= i < |g.projectiles| ==> Projectiles.Tiered(g.projectiles[i]))
    && g.nextItemX >= FirstItemX
  }

  function ProjectileLive(p: Projectiles.Projectile): bool { !p.marked }
  function ItemLive(i: Items.Item): bool { !i.marked }
  function EnemyLive(e: Enemies.Enemy): bool { !e.marked }

  function MoveProjectiles(ps: seq<Projectiles.Projectile>, dt: real, cameraX: real, width: real, height: real)
    : (r: seq<Projectiles.Projectile>)
    ensures |r| == |ps|
    ensures forall i :: 0 <= i < |ps| ==> r[i] == Projectiles.Update(ps[i], dt, cameraX, width, height)
  {
    seq(|ps|, i requires 0 <= i < |ps| => Projectiles.Update(ps[i], dt, cameraX, width, height))
  }

  function MoveEnemies(es: seq<Enemies.Enemy>, dt: real, cameraX: real): (r: seq<Enemies.Enemy>)
    ensures |r| == |es|
    ensures forall i :: 0 <= i < |es| ==> r[i] == Enemies.Update(es[i], dt, cameraX)
  {
    seq(|es|, i requires 0 <= i < |es| => Enemies.Update(es[i], dt, cameraX))
  }

  /** Fire at a consumed attack (js/game.js:388-398): a shot from the
      player's centre, powerful while riding. Without a pending attack
      nothing is fired. */
  function Fire(g: Game, attack: Option<Vec>, shot: Vec): (r: seq<Projectiles.Projectile>)
    ensures attack.None? ==> r == g.projectiles
    ensures attack.Some? ==> |r| == |g.projectiles| + 1 && r[..|g.projectiles|] == g.projectiles
    ensures attack.Some? ==> r[|g.projectiles|].damage == (if g.player.isRidingCow then Projectiles.PowerfulDamage else Projectiles.NormalDamage)
    ensures attack.Some? ==>
              r[|g.projectiles|].x == g.player.x + Players.Width / 2.0 &&
              r[|g.projectiles|].y == g.player.y + Players.Height / 2.0
    ensures attack.Some? ==>
              r[|g.projectiles|].vx == shot.x && r[|g.projectiles|].vy == shot.y &&
              !r[|g.projectiles|].marked && Projectiles.Tiered(r[|g.projectiles|]) &&
              (r[|g.projectiles|].size == Projectiles.PowerfulSize <==> g.player.isRidingCow)
  {
    if attack.Some? then
      g.projectiles + [Projectiles.Spawn(g.player.x + Players.Width / 2.0, g.player.y + Players.Height / 2.0,
                                         shot, g.player.isRidingCow)]
    else g.projectiles
  }

  /** The item spawner (js/game.js:405-410): once the right edge of the view
      passes the threshold, place one item past it and move the threshold on
      by 1500 to 2500 pixels. */
  function SpawnItem(g: Game, d: Draws): (r: Game)
    ensures r == g.(items := r.items, nextItemX := r.nextItemX)
    ensures g.camera.x + g.width > g.nextItemX ==>
              && r.items == g.items + [Items.Spawn(g.nextItemX, g.height, d.itemKind, d.itemY)]
              && g.nextItemX + ItemSpacing <= r.nextItemX < g.nextItemX + ItemSpacing + ItemSpacingJitter
    ensures g.camera.x + g.width <= g.nextItemX ==> r == g
  {
    if g.camera.x + g.width > g.nextItemX then
      Scale(d.itemGap, ItemSpacingJitter);
      g.(items := g.items + [Items.Spawn(g.nextItemX, g.height, d.itemKind, d.itemY)],
         nextItemX := g.nextItemX + ItemSpacing + d.itemGap * ItemSpacingJitter)
    else g
  }

  /** The enemy spawner (js/game.js:416-420): the timer accumulates elapsed
      time; once it exceeds the interval, one enemy appears and the timer
      restarts at 0. */
  function SpawnEnemy(g: Game, dt: real, d: Draws): (r: Game)
    ensures r == g.(enemies := r.enemies, enemyTimer := r.enemyTimer)
    ensures g.enemyTimer + dt > EnemyInterval <==> |r.enemies| == |g.enemies| + 1
    ensures g.enemyTimer + dt > EnemyInterval ==>
              r.enemyTimer == 0.0 &&
              r.enemies == g.enemies + [Enemies.Spawn(g.camera.x, g.width, g.height, d.enemyX, d.enemyY, d.enemySpeed)]
    ensures g.enemyTimer + dt <= EnemyInterval ==> r.enemyTimer == g.enemyTimer + dt && r.enemies == g.enemies
  {
    var timer := g.enemyTimer + dt;
    if timer > EnemyInterval then
      g.(enemies := g.enemies + [Enemies.Spawn(g.camera.x, g.width, g.height, d.enemyX, d.enemyY, d.enemySpeed)],
         enemyTimer := 0.0)
    else g.(enemyTimer := timer)
  }

  /** All three collision passes (js/game.js:318-381), in the order js/game.js runs them. */
  function CheckCollisions(g: Game): (r: Game)
    ensures r == g.(player := r.player, enemies := r.enemies, projectiles := r.projectiles, items := r.items)
    ensures |r.enemies| == |g.enemies| && |r.projectiles| == |g.projectiles| && |r.items| == |g.items|
    ensures r.player.x == g.player.x && r.player.y == g.player.y
    ensures Players.Consistent(g.player) ==> Players.Consistent(r.player)
    ensures forall i :: 0 <= i < |g.projectiles| ==>
              r.projectiles[i] == g.projectiles[i].(marked := r.projectiles[i].marked)
  {
    var pe := Collisions.PlayerVsEnemies(g.player, g.enemies);
    var pp := Collisions.ProjectilesVsEnemies(g.projectiles, pe.1);
    Collisions.ProjectilePassShots(g.projectiles, pe.1);
    var pi := Collisions.PlayerVsItems(pe.0, g.items);
    g.(player := pi.0, enemies := pp.1, projectiles := pp.0, items := pi.1)
  }

  /** The player's hp over a whole collision step: first one contact per
      touching enemy (absorbed by the mount while it lasts), then every
      reached heal, capped at the maximum. */
  lemma CheckCollisionsHp(g: Game)
    ensures var b := Players.BoxOf(g.player);
            var bumped := Collisions.AfterBumps(g.player, Collisions.Contacts(b, g.enemies));
            CheckCollisions(g).player.hp == Collisions.Healed(bumped.hp, Collisions.Heals(b, g.items), g.player.maxHp)
  {
    var pe := Collisions.PlayerVsEnemies(g.player, g.enemies);
    Collisions.PlayerVsEnemiesDamage(g.player, g.enemies);
    assert Players.BoxOf(pe.0) == Players.BoxOf(g.player);
    Collisions.PlayerVsItemsHp(pe.0, g.items);
  }

  /** The first half of `Game.update` (js/game.js:384-402): move the player,
      follow with the camera, fire at a consumed attack, then move every shot
      and drop the flagged ones. */
  function Advance(g: Game, dt: real, shot: Vec): (r: Game)
    ensures r == g.(player := r.player, camera := r.camera, input := r.input, projectiles := r.projectiles)
    ensures r.player == Players.Update(g.player, g.input.keys, dt, g.height)
    ensures r.camera == Cameras.Update(g.camera, r.player.x, g.width)
    ensures r.projectiles ==
              Filtering.Filter(
                MoveProjectiles(Fire(g.(player := r.player, camera := r.camera, input := r.input), g.input.touchAttack, shot),
                                dt, r.camera.x, g.width, g.height),
                ProjectileLive)
    ensures r.camera.x >= g.camera.x && r.camera.x >= 0.0 && r.player.x >= 0.0
    ensures r.input.touchAttack == None && r.input.keys == g.input.keys
    ensures Players.Consistent(g.player) ==> Players.Consistent(r.player)
    ensures forall i :: 0 <= i < |r.projectiles| ==> !r.projectiles[i].marked
    ensures (forall i :: 0 <= i < |g.projectiles| ==> Projectiles.Tiered(g.projectiles[i])) ==>
              forall i :: 0 <= i < |r.projectiles| ==> Projectiles.Tiered(r.projectiles[i])
  {
    var player := Players.Update(g.player, g.input.keys, dt, g.height);
    var camera := Cameras.Update(g.camera, player.x, g.width);
    var taken := Input.GetAttack(g.input);
    var g1 := g.(player := player, camera := camera, input := taken.1);
    var fired := Fire(g1, taken.0, shot);
    var moved := MoveProjectiles(fired, dt, camera.x, g.width, g.height);
    assert forall i :: 0 <= i < |moved| ==> Projectiles.Tiered(moved[i]) == Projectiles.Tiered(fired[i]);
    g1.(projectiles := Filtering.Filter(moved, ProjectileLive))
  }

  /** The second half of `Game.update` before the collisions
      (js/game.js:404-424): spawn an item if due and drop collected items,
      spawn an enemy if due, then move every enemy and drop the flagged ones. */
  function Populate(g: Game, dt: real, d: Draws): (r: Game)
    ensures r == g.(items := r.items, nextItemX := r.nextItemX, enemies := r.enemies, enemyTimer := r.enemyTimer)
    ensures r.nextItemX >= g.nextItemX
    ensures r.nextItemX == SpawnItem(g, d).nextItemX
    ensures r.items == Filtering.Filter(SpawnItem(g, d).items, ItemLive)
    ensures r.enemyTimer == SpawnEnemy(g, dt, d).enemyTimer
    ensures r.enemies == Filtering.Filter(MoveEnemies(SpawnEnemy(g, dt, d).enemies, dt, g.camera.x), EnemyLive)
    ensures forall i :: 0 <= i < |r.enemies| ==> !r.enemies[i].marked
  {
    var g1 := SpawnItem(g, d);
    var g2 := g1.(items := Filtering.Filter(g1.items, ItemLive));
    var g3 := SpawnEnemy(g2, dt, d);
    g3.(enemies := Filtering.Filter(MoveEnemies(g3.enemies, dt, g.camera.x), EnemyLive))
  }

  /** One call of `Game.update` (js/game.js:383-427). `shot` is the velocity
      js/game.js computes for a shot fired this frame. */
  function Update(g: Game, dt: real, shot: Vec, d: Draws): (r: Game)
    ensures r.camera.x >= g.camera.x
    ensures r.nextItemX >= g.nextItemX
    ensures r.input.touchAttack == None && r.input.keys == g.input.keys
    ensures r.status == g.status && r.width == g.width && r.height == g.height && r.lastTime == g.lastTime
    ensures Inv(g) ==> Inv(r)
  {
    CheckCollisions(Populate(Advance(g, dt, shot), dt, d))
  }

  /** The win/loss part of `Game.updateUI` (js/game.js:468-485): the distance
      in metres is the floor of x over 100; a win is checked before a loss,
      and neither fires once the game is over. */
  function Judge(g: Game): (r: Game)
    ensures r == g.(status := r.status)
    ensures g.status != Playing ==> r == g
    ensures r.status == Won <==> g.status == Won || (g.status == Playing && g.player.x >= 50000.0)
    ensures r.status == Lost <==>
              g.status == Lost || (g.status == Playing && g.player.x < 50000.0 && g.player.hp <= 0)
  {
    var distance := (g.player.x / PixelsPerMetre).Floor;
    WinDistanceIff(g.player.x);
    var g1 := if distance >= WinDistance && g.status == Playing then g.(status := Won) else g;
    if g1.player.hp <= 0 && g1.status == Playing then g1.(status := Lost) else g1
  }

  /** 500 whole metres are reached exactly from x = 50000 on. */
  lemma WinDistanceIff(x: real)
    ensures (x / PixelsPerMetre).Floor >= WinDistance <==> x >= 50000.0
  {
    var m := x / PixelsPerMetre;
    assert m * PixelsPerMetre == x;
    if x >= 50000.0 {
      assert m >= 500.0;
      assert (500.0).Floor == 500;
    } else {
      assert m < 500.0;
    }
  }

  /** What the host supplies for one frame: the listener events since the
      previous frame, the frame's timestamp, the velocity of a shot fired in
      it, and its random draws. */
  datatype Tick = Tick(events: seq<Input.Event>, timestamp: real, shot: Vec, draws: Draws)

  /** The listeners fire, then one animation frame runs (js/game.js:488-495):
      elapsed time is measured from the previous frame, and `update` (which
      reads the keys the listeners wrote) and the end-of-game judgement run
      only while the game is not over. The listeners keep running after the
      game is over (js/game.js:15-73), so the input changes even then. */
  function Frame(g: Game, t: Tick): (r: Game)
    ensures r.lastTime == t.timestamp && r.width == g.width && r.height == g.height
    ensures g.status != Playing ==> r == g.(lastTime := t.timestamp, input := Input.ApplyAll(g.input, t.events))
    ensures g.status == Playing ==>
              var p := Players.Update(g.player, Input.ApplyAll(g.input, t.events).keys, t.timestamp - g.lastTime, g.height);
              r.player.x == p.x && r.player.y == p.y && r.camera == Cameras.Update(g.camera, p.x, g.width)
    ensures g.status == Playing ==>
              r.input.touchAttack == None && r.input.keys == Input.ApplyAll(g.input, t.events).keys
    ensures r.camera.x >= g.camera.x && r.nextItemX >= g.nextItemX
    ensures Inv(g) ==> Inv(r)
  {
    var g1 := g.(input := Input.ApplyAll(g.input, t.events), lastTime := t.timestamp);
    if g1.status != Playing then g1
    else
      var u := Update(g1, t.timestamp - g.lastTime, t.shot, t.draws);
      assert Inv(g) ==> Inv(g1) && Inv(u);
      Judge(u)
  }

  /** The loop driven through a sequence of frames. */
  function Run(g: Game, ts: seq<Tick>): (r: Game)
    ensures r.lastTime == (if |ts| == 0 then g.lastTime else ts[|ts| - 1].timestamp)
    ensures r.width == g.width && r.height == g.height
    decreases |ts|
  {
    if |ts| == 0 then g
    else
      var rest := ts[1..];
      assert |rest| > 0 ==> rest[|rest| - 1] == ts[|ts| - 1];
      Run(Frame(g, ts[0]), rest)
  }

  /** The end-of-game latch over a whole run: once the game is over, no later
      frame changes anything but the frame clock and the input; in
      particular a won game never becomes lost or the other way round. */
  lemma {:induction false} RunAfterGameOver(g: Game, ts: seq<Tick>)
    requires g.status != Playing
    ensures Run(g, ts) == g.(lastTime := Run(g, ts).lastTime, input := Run(g, ts).input)
    decreases |ts|
  {
    if |ts| > 0 {
      RunAfterGameOver(Frame(g, ts[0]), ts[1..]);
    }
  }

  /** Over a whole run from a consistent state: the invariant holds at the
      end, the camera never moved back, and the item threshold never
      decreased. */
  lemma {:induction false} RunKeepsInv(g: Game, ts: seq<Tick>)
    requires Inv(g)
    ensures Inv(Run(g, ts))
    ensures Run(g, ts).camera.x >= g.camera.x
    ensures Run(g, ts).nextItemX >= g.nextItemX
    decreases |ts|
  {
    if |ts| > 0 {
      RunKeepsInv(Frame(g, ts[0]), ts[1..]);
    }
  }

  /** Running two stretches of frames one after the other is running them
      together. */
  lemma {:induction false} RunAppend(g: Game, a: seq<Tick>, b: seq<Tick>)
    ensures Run(g, a + b) == Run(Run(g, a), b)
    decreases |a|
  {
    if |a| > 0 {
      assert (a + b)[0] == a[0] && (a + b)[1..] == a[1..] + b;
      RunAppend(Frame(g, a[0]), a[1..], b);
    } else {
      assert a + b == b;
    }
  }

  /** A run's outcome is settled by the first frame that ends the game: once
      a stretch of frames has ended it, any further frames keep the same
      status, so the end state is set at most once. */
  lemma RunStatusLatch(g: Game, a: seq<Tick>, b: seq<Tick>)
    ensures Run(g, a).status != Playing ==> Run(g, a + b).status == Run(g, a).status
  {
    RunAppend(g, a, b);
    if Run(g, a).status != Playing {
      RunAfterGameOver(Run(g, a), b);
    }
  }
}

=== FILE: wrappers.dfy ===
/** A value that may be absent: the model of a JavaScript `null`-able field. */
module Wrappers {

  datatype Option<+T> = None | Some(value: T)
}
